=== FILE: README.md ===
# Token Tracking Database Manager — a Dafny model of its database resolver and CLI bridge

The Token Tracking Database Manager is a Streamlit dashboard over the SQLite database of an
Open WebUI deployment. Besides rendering tables, it does a small amount of real work, and
this project models that work:

- **Database location** (`get_database_path`). A `DATABASE_URL` of the form
  `sqlite:///<path>` or `sqlite+sqlcipher:///<path>` names the database. The scheme is cut
  off and a leading `/` is forced. With no usable URL, the resolver probes
  `/app/backend/data/webui.db`, then `/app/data/webui.db`, then `backend/data/webui.db` next
  to the script. If none exists, it returns `/app/backend/data/webui.db`.
  The environment variable is an `Option<string>`. The filesystem is the `set<string>` of
  paths that exist. The script-relative path is a parameter.
- **Command bridge** (`run_token_tracking_command`). The CLI's environment is a copy of the
  dashboard's own, with `DATABASE_URL` set to `sqlite:///` + the resolved path. The process
  outcome is reported as `(stdout, stderr, returncode)`. A timeout and any other exception
  both become empty stdout and code 1. A timeout is therefore not a result kind of its own.
  Only its message tells it apart, and the model follows the code in this.
- **Operation forms**. Each form has required-field guards. Each form builds a command line
  for the `owui-token-tracking` CLI, and a form shows success only for return code 0.
  A small model of how `/bin/sh` splits a command line into words (module `ShellWords`)
  serves as the partner of the command builders. It makes "the CLI receives the form's
  fields as its arguments" a provable statement.

Modules: `Outcomes` (Option/Result), `DatabaseLocation`, `Bridge`, `Decimal` (Python's
`str(int)` for the token limit), `ShellWords`, `Forms`.

The source formats commands by splicing form text into `"..."` unescaped (see Findings).
`Forms.CommandAsWritten` models those command lines exactly as the source writes them.
`Forms.Submit` is the corrected builder: it puts every argument in single quotes, with the
same `'"'"'` escape for an apostrophe as `shlex.quote`. The properties of submitting a form are stated about `Submit`.

## Model

| member | source | states |
|---|---|---|
| DatabaseLocation.Absolute | streamlit_app.py:27-28 | The result starts with `/`. An already absolute path is returned unchanged. Otherwise the result is the input behind exactly one added `/`. |
| DatabaseLocation.PathFromUrl | streamlit_app.py:21-34 | A URL is recognised exactly when it starts with `sqlite:///` or `sqlite+sqlcipher:///`. The path is the text after that scheme (the literal slice offsets 10 and 20 equal the scheme lengths), made absolute. |
| DatabaseLocation.Candidates | streamlit_app.py:37-49 | The probe list: the two container paths, the default `/app/backend/data/webui.db` first, then the script-relative path last. Both container paths are absolute. Its probe order is stated by `DatabaseLocation.ProbeOrder`. |
| DatabaseLocation.FirstExisting | streamlit_app.py:41-43 | Returns a candidate that exists and is preceded by no existing candidate. Returns nothing exactly when no candidate exists. |
| DatabaseLocation.ResolveDatabasePath | streamlit_app.py:17-52 | A set, non-empty and recognised URL gives its path. Otherwise the result is the first existing candidate among the two container paths and the script-relative path. If none exists, it is the default. |
| DatabaseLocation.UrlResolvesToSchemeRemainder | streamlit_app.py:21-34 | For a `sqlite:///` URL the result is the text after 10 characters; for `sqlite+sqlcipher:///` it is the text after 20. A `/` is prepended only if that text lacks one. The result is absolute and does not depend on the filesystem. |
| DatabaseLocation.ThreeOrFourSlashesAgree | streamlit_app.py:22-29 | `sqlite:///p` and `sqlite:////p` resolve to the same absolute path `/p`, as lines 25-26 say. |
| DatabaseLocation.UnusableUrlFallsThrough | streamlit_app.py:19-36 | An unset, empty or unrecognised `DATABASE_URL` is not an error. Resolution then equals resolution with the variable unset. |
| DatabaseLocation.ProbeOrder | streamlit_app.py:36-52 | Without a URL, `/app/backend/data/webui.db` wins if it exists, then `/app/data/webui.db`, then the script-relative path. With none existing, the result is the default, which equals the first candidate. |
| DatabaseLocation.FallbackExistsOrDefault | streamlit_app.py:51-52 | Without a URL, the result exists, or it is the default path and the default does not exist. In the model, resolution always yields a path (see "## Left out" for the exception the source can raise at line 48). |
| DatabaseLocation.ResolvedPathIsAbsolute | streamlit_app.py:17-52 | When the script-relative path is absolute, every resolution is absolute. |
| DatabaseLocation.SampleResolutions | streamlit_app.py:21-34 | `sqlite:///a/b.db` resolves to `/a/b.db` and `sqlite+sqlcipher:///x/y.db` to `/x/y.db`. |
| Bridge.Getenv | streamlit_app.py:19-20 | `os.getenv`: a value exactly when the variable is set, and then the variable's value. |
| Bridge.InjectUrl | streamlit_app.py:106 | The URL is `sqlite:///` followed by the path, and the dashboard's URL parser reads it back as that path made absolute. The full round trip is `Bridge.InjectedUrlRoundTrip`. |
| Bridge.ChildEnvironment | streamlit_app.py:104-106 | The CLI's environment has every variable of the dashboard's, with the same values, except `DATABASE_URL`. That value is `sqlite:///` followed by the path the dashboard resolved. |
| Bridge.InjectedUrlRoundTrip | streamlit_app.py:106 | For an absolute path `p`, the URL built at this line, resolved again by lines 21-29, gives exactly `p`, whatever the filesystem holds. |
| Bridge.InjectedRelativePathGainsSlash | streamlit_app.py:106 | A relative path does not round-trip: it comes back with a `/` in front. |
| Bridge.ChildSeesSameDatabase | streamlit_app.py:104-106 | When the dashboard's resolved path is absolute, the dashboard's resolver, applied to the child's environment, reaches the same path, whatever the child's filesystem view. |
| Bridge.Report | streamlit_app.py:118-130 | When `subprocess.run` returns, its stdout, stderr and status are reported unchanged. A timeout gives `("", "Command timed out", 1)` and any other exception gives `("", message, 1)`. Code 0 is reported exactly when `subprocess.run` returned with status 0. |
| Bridge.TimeoutLooksLikeException | streamlit_app.py:127-130 | A timeout is reported exactly as an exception carrying the message "Command timed out" would be, and as a CLI that wrote that text to stderr and exited with 1. So it is not a distinct result kind. |
| Bridge.Judge | streamlit_app.py:228-234 | A form shows success exactly for return code 0, displaying stdout. Otherwise it shows stderr as the message and stdout followed by stderr as the detail. |
| Bridge.SuccessOnlyFromCleanExit | streamlit_app.py:126-130 | End to end, success is shown exactly when `subprocess.run` returned with status 0. A timeout or an exception is shown as a failure whose detail is just the error text. |
| Decimal.NatToDecimal | streamlit_app.py:225 | The rendering is non-empty, all digits, and has no leading zero. |
| Decimal.NatToDecimalRoundTrip | streamlit_app.py:225 | Reading the rendered digits back gives the number. |
| Decimal.IntToDecimal | streamlit_app.py:225 | `str(n)` of the token limit: a leading `-` exactly for negative numbers, then digits. |
| Decimal.IntToDecimalRoundTrip | streamlit_app.py:225 | The digits after the optional sign spell the absolute value. |
| ShellWords.JoinRoundTrip | streamlit_app.py:118-125 | A command line that quotes every argument is split by the shell back into exactly those arguments, for any argument text (see "## Left out" for the NUL character). |
| Forms.Submit | streamlit_app.py:223-236 | An empty required field refuses the form with its message and no command. Otherwise the command line gives the CLI exactly the form's fields as arguments. |
| Forms.MissingField | streamlit_app.py:224-296 | The guards at lines 224/236, 261/273 and 285/296: a form is refused exactly when one of its required fields (plan name; user id and group name; email) is empty, and the refusal carries a message. The exact messages are stated by `Forms.CreateNeedsPlanName`, `Forms.AddUserNeedsBothFields` and `Forms.FindUserNeedsEmail`. |
| Forms.CommandAsWritten | streamlit_app.py:225-401 | The command strings at lines 225, 262, 286, 344 and 401, as the source formats them. This is a plain definition with no contract of its own. Its properties are the `*AsWrittenIntact` lemmas (which arguments the shell gives the CLI for safe input) and the `*Splits` lemmas (inputs that split an argument). |
| Forms.CreateNeedsPlanName | streamlit_app.py:224-236 | Creating a credit group is refused with "Plan name is required" exactly when the plan name is empty. |
| Forms.AddUserNeedsBothFields | streamlit_app.py:261-273 | Adding a user is refused with "User ID and Group Name are required" exactly when either field is empty. |
| Forms.FindUserNeedsEmail | streamlit_app.py:285-296 | Finding a user is refused with "Email is required" exactly when the email is empty. |
| Forms.MigrationsNeedNoFields | streamlit_app.py:343-345 | The initial and model migrations are never refused. |
| Forms.CreateAsWrittenIntact | streamlit_app.py:225 | If the plan name and description hold no `"`, `\`, `$` or backquote, the source's command splits into the tool, `credit-group`, `create`, plan, limit and description. |
| Forms.AddUserAsWrittenIntact | streamlit_app.py:262 | If the user id consists of shell-inert characters and the group name holds no `"`, `\`, `$` or backquote, the source's command splits into the intended five words. |
| Forms.FindUserAsWrittenIntact | streamlit_app.py:286 | If the email holds no `"`, `\`, `$` or backquote, the source's command splits into the tool, `user`, `find`, `--email` and the email. |
| Forms.InitialMigrationIntact | streamlit_app.py:344 | The initial-migration command splits into `owui-token-tracking init`. |
| Forms.ModelMigrationIntact | streamlit_app.py:401 | The model-migration command splits into the tool, `init`, `--model-json` and the manifest path. |
| Forms.CreatePlanNameQuoteSplits | streamlit_app.py:225 | A plan name `x" "y` reaches the CLI as two arguments `x` and `y`, so the CLI gets seven arguments instead of six. |
| Forms.AddUserIdBlankSplits | streamlit_app.py:262 | A user id `a b` reaches the CLI as two arguments, which pushes the group name out of its position. |
| Forms.FindUserEmailQuoteSplits | streamlit_app.py:286 | An email `x" "y` reaches the CLI as two arguments. |

## Left out

- Streamlit rendering, tabs, sidebar debug output, `st.rerun` and `st.stop`: user interface. For the same reason, the forms' dependence on an open connection is not modelled.
- `get_db_connection`, `get_all_tables`, `get_table_data` and the `PRAGMA table_info` read: sqlite3 and pandas I/O against a database outside the model.
- `subprocess.run` itself, `os.chdir` into the backend directory, and the 30-second timeout mechanics: process I/O. The process outcome enters as the `Bridge.Execution` value.
- The `owui-token-tracking` CLI: an external tool. Its arguments are modelled, its behaviour is not.
- Bridge.ChildSeesSameDatabase: it applies the dashboard's own resolver to the child's environment. That the CLI reads `DATABASE_URL` = `sqlite:///` + an absolute path as that path is assumed, not modelled.
- The `token_parity.json` lookup, loading and display (streamlit_app.py:379-413): file I/O. Only the migration command at line 401 is modelled. The existence check before it is not modelled, and neither is the `None` dereference at line 390 when no manifest is found.
- `backend/run_uvicorn.py`: environment defaults, a secret-key file read and the uvicorn launch. This is configuration and process plumbing.
- ShellWords.JoinRoundTrip: the shell model covers blanks, `'...'`, `"..."` and backslashes only. Parameter expansion, command substitution, globbing, comments and redirections are not modelled. A newline outside quotes counts as a blank, not as a command separator. The round trip also holds for text containing a NUL character, which never reaches a process: `subprocess.run` refuses such an argument with an exception, which streamlit_app.py:129-130 reports as `("", message, 1)`. The as-written lemmas therefore exclude `$` and backquotes from quoted fields, and allow only shell-inert characters in the bare user id.
- Bridge.Report: `Execution` is what `subprocess.run` produced, not what the process did. With `text=True`, output that does not decode as UTF-8 raises, so it arrives as `Raised` even after a clean exit. `\r\n` and `\r` are turned into `\n` before `Exited` carries the text. Decoding is not modelled.
- Forms.Submit: it deliberately differs from the source. It quotes every argument instead of splicing text into `"..."` (see Findings). Its guards and messages are those of the source.
- DatabaseLocation.ResolvedPathIsAbsolute: it holds only when the script-relative path is absolute. With a relative script location, the CLI is handed `sqlite:///` followed by the relative path. The dashboard's resolver would read that back as `/` + path (Bridge.InjectedRelativePathGainsSlash). How the CLI reads it is not modelled.
- DatabaseLocation.ResolveDatabasePath: existence is modelled as a set of paths, so every existence test answers yes or no. `os.path.exists` at line 42 does answer so, turning any OS error into False. `Path.exists()` at line 48 re-raises errors other than a missing or looping path, such as a permission error on `backend/data`. That exception is not modelled. The source would then raise instead of returning the default: uncaught on the page-load path, and reported as `("", message, 1)` through line 104.

## Findings

| source | as written | input that shows it | evidently intended | confidence | as-written member | corrected member |
|---|---|---|---|---|---|---|
| streamlit_app.py:225 | Plan name and description are spliced between `"` characters without escaping and run through `shell=True`. | plan name `Gold" "Plan` | Each form field reaches the CLI as one argument. | high; not executed | Forms.CreatePlanNameQuoteSplits | Forms.Submit |
| streamlit_app.py:262 | The user id is spliced into the command with no quoting at all. | user id `a b` | The user id reaches the CLI as one argument. | high; not executed | Forms.AddUserIdBlankSplits | Forms.Submit |
| streamlit_app.py:286 | The email is spliced between `"` characters without escaping. | email `a" "b` | The email reaches the CLI as one argument. | high; not executed | Forms.FindUserEmailQuoteSplits | Forms.Submit |

The same splicing also lets `$(...)` and backquotes in a field run commands in the shell.
The shell model does not cover expansion, so that consequence is stated here and not proved.

=== FILE: bridge.dfy ===
/**
  The command bridge (`run_token_tracking_command`): the environment handed to
  the token-tracking CLI, and how the outcome of running it is reported.

  Running the child process is not modelled; what it did arrives as an
  `Execution` value.
*/
module Bridge {
  import opened Outcomes
  import opened DatabaseLocation

  const DatabaseUrlKey: string := "DATABASE_URL"
  const TimeoutMessage: string := "Command timed out"

  /** `os.getenv(key)` over an environment. */
  function Getenv(env: map<string, string>, key: string): (r: Option<string>)
    ensures r.Some? <==> key in env
    ensures r.Some? ==> r.value == env[key]
  {
    if key in env then Some(env[key]) else None
  }

  /** The connection string handed to the CLI for a resolved path. */
  function InjectUrl(path: string): (url: string)
    ensures SqliteScheme <= url && url[|SqliteScheme|..] == path
    ensures PathFromUrl(url) == Some(Absolute(path))
  {
    SqliteScheme + path
  }

  /**
    A copy of the dashboard's environment in which DATABASE_URL names the
    database the dashboard itself resolved; every other variable is kept.
  */
  function ChildEnvironment(env: map<string, string>, existing: set<string>, localPath: string): (child: map<string, string>)
    ensures child.Keys == env.Keys + {DatabaseUrlKey}
    ensures SqliteScheme <= child[DatabaseUrlKey]
    ensures child[DatabaseUrlKey][|SqliteScheme|..] == ResolveDatabasePath(Getenv(env, DatabaseUrlKey), existing, localPath)
    ensures forall k | k in env && k != DatabaseUrlKey :: child[k] == env[k]
  {
    env[DatabaseUrlKey := InjectUrl(ResolveDatabasePath(Getenv(env, DatabaseUrlKey), existing, localPath))]
  }

  /**
    Round trip: resolving the injected URL of an absolute path gives that path
    back, whatever exists and wherever the script lives.
  */
  lemma InjectedUrlRoundTrip(p: string, existing: set<string>, localPath: string)
    requires IsAbsolute(p)
    ensures PathFromUrl(InjectUrl(p)) == Some(p)
    ensures ResolveDatabasePath(Some(InjectUrl(p)), existing, localPath) == p
  {
    assert SqliteScheme <= InjectUrl(p) && InjectUrl(p)[10..] == p;
  }

  /** A relative path does not survive the trip: it comes back with "/" prepended. */
  lemma InjectedRelativePathGainsSlash(p: string, existing: set<string>, localPath: string)
    requires !IsAbsolute(p)
    ensures ResolveDatabasePath(Some(InjectUrl(p)), existing, localPath) == "/" + p != p
  {
    assert SqliteScheme <= InjectUrl(p) && InjectUrl(p)[10..] == p;
    assert |"/" + p| != |p|;
  }

  /**
    The dashboard's resolver, applied to the child's environment, reaches the
    same path, provided that path is absolute (it always is when the script
    lives at an absolute path); what exists in the child's view of the
    filesystem makes no difference.
  */
  lemma ChildSeesSameDatabase(env: map<string, string>, existing: set<string>, localPath: string,
                              childExisting: set<string>, childLocalPath: string)
    requires IsAbsolute(ResolveDatabasePath(Getenv(env, DatabaseUrlKey), existing, localPath))
    ensures ResolveDatabasePath(Getenv(ChildEnvironment(env, existing, localPath), DatabaseUrlKey), childExisting, childLocalPath)
         == ResolveDatabasePath(Getenv(env, DatabaseUrlKey), existing, localPath)
  {
    var p := ResolveDatabasePath(Getenv(env, DatabaseUrlKey), existing, localPath);
    InjectedUrlRoundTrip(p, childExisting, childLocalPath);
  }

  /** What the child process did, as seen by `subprocess.run`. */
  datatype Execution =
    | Exited(stdout: string, stderr: string, status: int)
    | TimedOut
    | Raised(message: string)

  /** The triple `(stdout, stderr, returncode)` the bridge returns. */
  datatype CommandResult = CommandResult(stdout: string, stderr: string, returnCode: int)

  /**
    A `subprocess.run` that returned is reported with the status and text it
    returned; a timeout and any other
    exception are reported with empty stdout and return code 1, so a failure
    of the bridge itself never reads as success.
  */
  function Report(e: Execution): (r: CommandResult)
    ensures e.Exited? ==> r.stdout == e.stdout && r.stderr == e.stderr && r.returnCode == e.status
    ensures !e.Exited? ==> r.stdout == "" && r.returnCode == 1
    ensures e.TimedOut? ==> r.stderr == TimeoutMessage
    ensures e.Raised? ==> r.stderr == e.message
    ensures r.returnCode == 0 <==> e.Exited? && e.status == 0
  {
    match e
    case Exited(out, err, status) => CommandResult(out, err, status)
    case TimedOut => CommandResult("", TimeoutMessage, 1)
    case Raised(message) => CommandResult("", message, 1)
  }

  /**
    A timeout is not a result kind of its own: it reads exactly like an
    exception whose message is the timeout text, and like a CLI that printed
    that text to stderr and exited with status 1.
  */
  lemma TimeoutLooksLikeException()
    ensures Report(TimedOut) == Report(Raised(TimeoutMessage))
    ensures Report(TimedOut) == Report(Exited("", TimeoutMessage, 1))
  {
  }

  /**
    What a form shows after a command: stdout on success; otherwise stderr as
    the message and stdout followed by stderr as the detail.
  */
  datatype Verdict = Succeeded(shown: string) | Failed(message: string, shown: string)

  function Judge(r: CommandResult): (v: Verdict)
    ensures v.Succeeded? <==> r.returnCode == 0
    ensures v.Succeeded? ==> v.shown == r.stdout
    ensures v.Failed? ==> v.message == r.stderr && v.shown == r.stdout + r.stderr
  {
    if r.returnCode == 0 then Succeeded(r.stdout) else Failed(r.stderr, r.stdout + r.stderr)
  }

  /**
    End to end: a form reports success exactly when `subprocess.run` returned
    with status 0; a timeout or an exception (an undecodable output among them)
    is shown as a failure whose detail is just the error text.
  */
  lemma SuccessOnlyFromCleanExit(e: Execution)
    ensures Judge(Report(e)).Succeeded? <==> e.Exited? && e.status == 0
    ensures e.TimedOut? ==> Judge(Report(e)) == Failed(TimeoutMessage, TimeoutMessage)
    ensures e.Raised? ==> Judge(Report(e)) == Failed(e.message, e.message)
  {
    if !e.Exited? {
      assert Report(e).stdout == "";
      assert "" + Report(e).stderr == Report(e).stderr;
    }
  }
}

=== FILE: database_location.dfy ===
/**
  Where the dashboard finds its SQLite database (`get_database_path`).

  The environment variable DATABASE_URL is taken as an optional string and the
  filesystem as the set of paths that exist, so resolution is a pure, total
  function. The script-relative fallback (`<script dir>/backend/data/webui.db`)
  is a parameter because it depends on where the script lives.
*/
module DatabaseLocation {
  import opened Outcomes

  /** The two URL schemes the resolver recognises. */
  const SqliteScheme: string := "sqlite:///"
  const SqlcipherScheme: string := "sqlite+sqlcipher:///"

  /** The container locations probed, in order, before the script-relative one. */
  const DockerCandidates: seq<string> := ["/app/backend/data/webui.db", "/app/data/webui.db"]

  /** What is returned when nothing exists: the database will be created there. */
  const DefaultPath: string := "/app/backend/data/webui.db"

  /** Python truthiness of `os.getenv("DATABASE_URL")`: set and not empty. */
  predicate UrlGiven(databaseUrl: Option<string>) {
    databaseUrl.Some? && databaseUrl.value != ""
  }

  predicate IsAbsolute(p: string) {
    "/" <= p
  }

  /** Prepends "/" unless the text already starts with one. */
  function Absolute(p: string): (r: string)
    ensures IsAbsolute(r)
    ensures IsAbsolute(p) ==> r == p
    ensures !IsAbsolute(p) ==> r[1..] == p
  {
    if IsAbsolute(p) then p else "/" + p
  }

  /**
    The path named by a recognised URL, or None for any other text. The slice
    offsets are the literal 10 and 20 of the source; each equals the length of
    the scheme it follows.
  */
  function PathFromUrl(url: string): (r: Option<string>)
    ensures r.Some? <==> SqliteScheme <= url || SqlcipherScheme <= url
    ensures r.Some? ==> IsAbsolute(r.value)
    ensures SqliteScheme <= url ==> r == Some(Absolute(url[|SqliteScheme|..]))
    ensures SqlcipherScheme <= url ==> r == Some(Absolute(url[|SqlcipherScheme|..]))
  {
    if SqliteScheme <= url then
      // The schemes part at their seventh character (':' against '+').
      assert url[6] == SqliteScheme[6] != SqlcipherScheme[6];
      Some(Absolute(url[10..]))
    else if SqlcipherScheme <= url then Some(Absolute(url[20..]))
    else None
  }

  /** The candidates probed when no usable URL is configured, in probe order. */
  function Candidates(localPath: string): (c: seq<string>)
    ensures |c| == 3 && c[2] == localPath
    ensures c[0] == DefaultPath && IsAbsolute(c[0]) && IsAbsolute(c[1])
  {
    DockerCandidates + [localPath]
  }

  /** `p` is the earliest candidate in `candidates` that exists. */
  ghost predicate FirstExistingIs(candidates: seq<string>, existing: set<string>, p: string) {
    exists i | 0 <= i < |candidates| ::
      candidates[i] == p && p in existing && forall j | 0 <= j < i :: candidates[j] !in existing
  }

  /** The `for path in ...: if os.path.exists(path): return path` loop. */
  function FirstExisting(candidates: seq<string>, existing: set<string>): (r: Option<string>)
    ensures r.Some? ==> FirstExistingIs(candidates, existing, r.value)
    ensures r.None? ==> forall i | 0 <= i < |candidates| :: candidates[i] !in existing
  {
    if |candidates| == 0 then None
    else if candidates[0] in existing then
      Some(candidates[0])
    else
      var rest := FirstExisting(candidates[1..], existing);
      if rest.Some? then
        ghost var i :| 0 <= i < |candidates[1..]| && candidates[1..][i] == rest.value && rest.value in existing
                       && forall j | 0 <= j < i :: candidates[1..][j] !in existing;
        assert candidates[i + 1] == rest.value;
        rest
      else
        rest
  }

  /**
    `get_database_path`: a recognised URL wins; an unset, empty or unrecognised
    one falls through to probing the candidates; the default closes the search.
  */
  function ResolveDatabasePath(databaseUrl: Option<string>, existing: set<string>, localPath: string): (r: string)
    ensures UrlGiven(databaseUrl) && PathFromUrl(databaseUrl.value).Some? ==>
      r == PathFromUrl(databaseUrl.value).value
    ensures !(UrlGiven(databaseUrl) && PathFromUrl(databaseUrl.value).Some?) ==>
      FirstExistingIs(Candidates(localPath), existing, r)
      || (r == DefaultPath && forall i | 0 <= i < |Candidates(localPath)| :: Candidates(localPath)[i] !in existing)
  {
    var fromUrl := if UrlGiven(databaseUrl) then PathFromUrl(databaseUrl.value) else None;
    if fromUrl.Some? then fromUrl.value
    else
      match FirstExisting(DockerCandidates, existing)
      case Some(p) =>
        ProbeExtends(DockerCandidates, [localPath], existing, p);
        p
      case None =>
        if localPath in existing then
          assert Candidates(localPath)[2] == localPath;
          localPath
        else
          DefaultPath
  }

  /** A hit among the first candidates stays the first hit when more are appended. */
  lemma ProbeExtends(front: seq<string>, back: seq<string>, existing: set<string>, p: string)
    requires FirstExistingIs(front, existing, p)
    ensures FirstExistingIs(front + back, existing, p)
  {
    var i :| 0 <= i < |front| && front[i] == p && p in existing && forall j | 0 <= j < i :: front[j] !in existing;
    assert (front + back)[i] == p;
    forall j | 0 <= j < i ensures (front + back)[j] !in existing {
      assert (front + back)[j] == front[j];
    }
  }

  /**
    A recognised URL resolves to the text after its scheme, made absolute, and
    the filesystem plays no part: the result is the same whatever exists.
  */
  lemma UrlResolvesToSchemeRemainder(url: string, existing: set<string>, localPath: string,
                                     otherExisting: set<string>, otherLocalPath: string)
    requires SqliteScheme <= url || SqlcipherScheme <= url
    ensures var rest := if SqliteScheme <= url then url[10..] else url[20..];
      var r := ResolveDatabasePath(Some(url), existing, localPath);
      && IsAbsolute(r)
      && (IsAbsolute(rest) ==> r == rest)
      && (!IsAbsolute(rest) ==> r == "/" + rest)
      && r == ResolveDatabasePath(Some(url), otherExisting, otherLocalPath)
  {
    assert url != "";
  }

  /** With three or four slashes after "sqlite:" the resolver finds the same path. */
  lemma ThreeOrFourSlashesAgree(rest: string, existing: set<string>, localPath: string)
    requires !IsAbsolute(rest)
    ensures ResolveDatabasePath(Some(SqliteScheme + rest), existing, localPath)
         == ResolveDatabasePath(Some(SqliteScheme + "/" + rest), existing, localPath)
         == "/" + rest
  {
    var three := SqliteScheme + rest;
    var four := SqliteScheme + "/" + rest;
    assert SqliteScheme <= three && three[10..] == rest;
    assert SqliteScheme <= four && four[10..] == "/" + rest;
  }

  /**
    An unset, empty or unrecognised DATABASE_URL is not an error: resolution
    goes on exactly as if the variable were unset.
  */
  lemma UnusableUrlFallsThrough(databaseUrl: Option<string>, existing: set<string>, localPath: string)
    requires !UrlGiven(databaseUrl) || PathFromUrl(databaseUrl.value).None?
    ensures ResolveDatabasePath(databaseUrl, existing, localPath) == ResolveDatabasePath(None, existing, localPath)
  {
  }

  /**
    Without a usable URL the result is the first existing candidate, in the
    order /app/backend/data/webui.db, /app/data/webui.db, the script-relative
    path; when none exists it is the default, which is the first candidate.
  */
  lemma ProbeOrder(existing: set<string>, localPath: string)
    ensures var r := ResolveDatabasePath(None, existing, localPath);
      && ("/app/backend/data/webui.db" in existing ==> r == "/app/backend/data/webui.db")
      && ("/app/backend/data/webui.db" !in existing && "/app/data/webui.db" in existing ==> r == "/app/data/webui.db")
      && ("/app/backend/data/webui.db" !in existing && "/app/data/webui.db" !in existing && localPath in existing
          ==> r == localPath)
      && ("/app/backend/data/webui.db" !in existing && "/app/data/webui.db" !in existing && localPath !in existing
          ==> r == DefaultPath == Candidates(localPath)[0])
  {
    var r := ResolveDatabasePath(None, existing, localPath);
    var c := Candidates(localPath);
    assert c[0] == "/app/backend/data/webui.db" && c[1] == "/app/data/webui.db" && c[2] == localPath;
    if FirstExistingIs(c, existing, r) {
      var i :| 0 <= i < |c| && c[i] == r && r in existing && forall j | 0 <= j < i :: c[j] !in existing;
      assert i == 0 || c[0] !in existing;
      assert i <= 1 || c[1] !in existing;
    }
  }

  /** Without a usable URL the result is a path that exists, or the default. */
  lemma FallbackExistsOrDefault(existing: set<string>, localPath: string)
    ensures var r := ResolveDatabasePath(None, existing, localPath);
      r in existing || (r == DefaultPath && DefaultPath !in existing)
  {
    var r := ResolveDatabasePath(None, existing, localPath);
    assert Candidates(localPath)[0] == DefaultPath;
  }

  /** When the script lives at an absolute path, every resolved path is absolute. */
  lemma ResolvedPathIsAbsolute(databaseUrl: Option<string>, existing: set<string>, localPath: string)
    requires IsAbsolute(localPath)
    ensures IsAbsolute(ResolveDatabasePath(databaseUrl, existing, localPath))
  {
    var r := ResolveDatabasePath(databaseUrl, existing, localPath);
    var c := Candidates(localPath);
    assert forall i | 0 <= i < |c| :: IsAbsolute(c[i]) by {
      assert c[0] == "/app/backend/data/webui.db" && c[1] == "/app/data/webui.db" && c[2] == localPath;
    }
    if !(UrlGiven(databaseUrl) && PathFromUrl(databaseUrl.value).Some?) && FirstExistingIs(c, existing, r) {
      var i :| 0 <= i < |c| && c[i] == r && r in existing && forall j | 0 <= j < i :: c[j] !in existing;
    }
  }

  /** Two sample resolutions, one per scheme, whatever exists on disk. */
  lemma SampleResolutions(existing: set<string>, localPath: string)
    ensures ResolveDatabasePath(Some("sqlite:///a/b.db"), existing, localPath) == "/a/b.db"
    ensures ResolveDatabasePath(Some("sqlite+sqlcipher:///x/y.db"), existing, localPath) == "/x/y.db"
  {
    var a := "sqlite:///a/b.db";
    var x := "sqlite+sqlcipher:///x/y.db";
    assert SqliteScheme <= a && a[10..] == "a/b.db";
    assert "a/b.db"[0] == 'a' && "/" + "a/b.db" == "/a/b.db";
    UrlResolvesToSchemeRemainder(a, existing, localPath, existing, localPath);
    assert x[6] == '+';
    assert SqlcipherScheme <= x && x[20..] == "x/y.db";
    assert "x/y.db"[0] == 'x' && "/" + "x/y.db" == "/x/y.db";
    UrlResolvesToSchemeRemainder(x, existing, localPath, existing, localPath);
  }
}

=== FILE: decimal.dfy ===
/** Python's `str(int)`, as used when a number is formatted into a command. */
module Decimal {

  predicate IsDigit(c: char) {
    '0' <= c <= '9'
  }

  function DigitChar(d: nat): (c: char)
    requires d < 10
    ensures IsDigit(c) && c as int - '0' as int == d
  {
    ('0' as int + d) as char
  }

  function DigitValue(c: char): nat
    requires IsDigit(c)
  {
    c as int - '0' as int
  }

  /** Decimal digits of `n`, most significant first, without leading zeros. */
  function NatToDecimal(n: nat): (s: string)
    ensures |s| > 0
    ensures forall i | 0 <= i < |s| :: IsDigit(s[i])
    ensures |s| > 1 ==> s[0] != '0'
  {
    if n < 10 then [DigitChar(n)] else NatToDecimal(n / 10) + [DigitChar(n % 10)]
  }

  /** Value of a digit string, most significant digit first. */
  function DecimalValue(s: string): nat
    requires forall i | 0 <= i < |s| :: IsDigit(s[i])
  {
    if |s| == 0 then 0 else 10 * DecimalValue(s[..|s| - 1]) + DigitValue(s[|s| - 1])
  }

  /** Reading back the digits gives the number. */
  lemma {:induction false} NatToDecimalRoundTrip(n: nat)
    ensures DecimalValue(NatToDecimal(n)) == n
  {
    if n >= 10 {
      var s := NatToDecimal(n);
      assert s[..|s| - 1] == NatToDecimal(n / 10);
      NatToDecimalRoundTrip(n / 10);
    }
  }

  /** `str(n)`: a minus sign for negative numbers, then the digits of |n|. */
  function IntToDecimal(n: int): (s: string)
    ensures |s| > 0
    ensures n < 0 <==> s[0] == '-'
    ensures forall i | 0 <= i < |s| :: IsDigit(s[i]) || (i == 0 && s[i] == '-')
  {
    if n < 0 then "-" + NatToDecimal(-n) else NatToDecimal(n)
  }

  /** The rendering is faithful: the digits after an optional sign spell |n|. */
  lemma IntToDecimalRoundTrip(n: int)
    ensures var s := IntToDecimal(n);
      var digits := if n < 0 then s[1..] else s;
      (forall i | 0 <= i < |digits| :: IsDigit(digits[i]))
      && DecimalValue(digits) == if n < 0 then -n else n
  {
    if n < 0 {
      assert IntToDecimal(n)[1..] == NatToDecimal(-n);
      NatToDecimalRoundTrip(-n);
    } else {
      NatToDecimalRoundTrip(n);
    }
  }
}

=== FILE: forms.dfy ===
/**
  The operation forms of the dashboard that call the token-tracking CLI: the
  required-field guards, the argument vector each form means to pass, the
  command line the source builds (`CommandAsWritten`) and the command line
  this model builds instead (`Submit`), which quotes every argument.
*/
module Forms {
  import opened Outcomes
  import opened Decimal
  import opened ShellWords

  const Tool: string := "owui-token-tracking"
  const ParityManifest: string := "token-tracking/token_parity.json"

  datatype Form =
    | CreateCreditGroup(planName: string, tokenLimit: int, description: string)
    | AddUserToGroup(userId: string, groupName: string)
    | FindUser(email: string)
    | InitialMigration
    | ModelMigration

  /** The fields a form will not run without (the token limit always has a value). */
  function RequiredFields(f: Form): seq<string> {
    match f
    case CreateCreditGroup(plan, _, _) => [plan]
    case AddUserToGroup(user, group) => [user, group]
    case FindUser(email) => [email]
    case InitialMigration => []
    case ModelMigration => []
  }

  /** The message shown instead of running the command, when a required field is empty. */
  function MissingField(f: Form): (r: Option<string>)
    ensures r.None? <==> "" !in RequiredFields(f)
    ensures r.Some? ==> r.value != ""
  {
    match f
    case CreateCreditGroup(plan, _, _) =>
      if plan == "" then Some("Plan name is required") else None
    case AddUserToGroup(user, group) =>
      if user == "" || group == "" then Some("User ID and Group Name are required") else None
    case FindUser(email) =>
      if email == "" then Some("Email is required") else None
    case InitialMigration => None
    case ModelMigration => None
  }

  /** The arguments each form means the CLI to receive, one per form field. */
  function Arguments(f: Form): seq<string> {
    match f
    case CreateCreditGroup(plan, limit, description) =>
      [Tool, "credit-group", "create", plan, IntToDecimal(limit), description]
    case AddUserToGroup(user, group) => [Tool, "credit-group", "add-user", user, group]
    case FindUser(email) => [Tool, "user", "find", "--email", email]
    case InitialMigration => [Tool, "init"]
    case ModelMigration => [Tool, "init", "--model-json", ParityManifest]
  }

  /** The command lines the source formats: form text inside "..." and the user id bare. */
  function CommandAsWritten(f: Form): string {
    match f
    case CreateCreditGroup(plan, limit, description) =>
      "owui-token-tracking credit-group create \"" + plan + "\" " + IntToDecimal(limit) + " \"" + description + "\""
    case AddUserToGroup(user, group) =>
      "owui-token-tracking credit-group add-user " + user + " \"" + group + "\""
    case FindUser(email) =>
      "owui-token-tracking user find --email \"" + email + "\""
    case InitialMigration => "owui-token-tracking init"
    case ModelMigration => "owui-token-tracking init --model-json token-tracking/token_parity.json"
  }

  /**
    Submitting a form: an empty required field is refused with its message and
    no command; otherwise the command line hands the CLI exactly the form's
    arguments, whatever characters the fields contain (a NUL character included,
    though the process launch would refuse such a command before any shell runs).
  */
  function Submit(f: Form): (r: Result<string, string>)
    ensures r.Err? <==> MissingField(f).Some?
    ensures r.Err? ==> r.error == MissingField(f).value
    ensures r.Ok? ==> Words(r.value) == Some(Arguments(f))
  {
    match MissingField(f)
    case Some(message) => Err(message)
    case None =>
      JoinRoundTrip(Arguments(f));
      Ok(Join(Arguments(f)))
  }

  /** Creating a credit group needs a plan name; the token limit and description may be anything. */
  lemma CreateNeedsPlanName(plan: string, limit: int, description: string)
    ensures Submit(CreateCreditGroup(plan, limit, description)) == Err("Plan name is required") <==> plan == ""
    ensures plan != "" ==> Submit(CreateCreditGroup(plan, limit, description)).Ok?
  {
  }

  /** Adding a user to a group needs both the user id and the group name. */
  lemma AddUserNeedsBothFields(user: string, group: string)
    ensures Submit(AddUserToGroup(user, group)) == Err("User ID and Group Name are required") <==> user == "" || group == ""
    ensures user != "" && group != "" ==> Submit(AddUserToGroup(user, group)).Ok?
  {
  }

  /** Finding a user needs an email address. */
  lemma FindUserNeedsEmail(email: string)
    ensures Submit(FindUser(email)) == Err("Email is required") <==> email == ""
    ensures email != "" ==> Submit(FindUser(email)).Ok?
  {
  }

  /** The migrations take no input and are never refused. */
  lemma MigrationsNeedNoFields()
    ensures Submit(InitialMigration).Ok? && Submit(ModelMigration).Ok?
  {
  }

  // ---- the command lines as written ----

  /** Safe inside "...": nothing a shell treats specially there. */
  predicate DoubleQuoteSafe(s: string) {
    forall i | 0 <= i < |s| :: s[i] != '"' && s[i] != '\\' && s[i] != '$' && s[i] != '`'
  }

  /** Characters a shell leaves alone in an unquoted word (those `shlex.quote` leaves bare). */
  predicate IsWordChar(c: char) {
    || 'a' <= c <= 'z' || 'A' <= c <= 'Z' || '0' <= c <= '9'
    || c == '_' || c == '@' || c == '%' || c == '+' || c == '=' || c == ':'
    || c == ',' || c == '.' || c == '/' || c == '-'
  }

  predicate BareSafe(s: string) {
    |s| > 0 && forall i | 0 <= i < |s| :: IsWordChar(s[i])
  }

  /** Words followed by a blank each. */
  function Spaced(ws: seq<string>): string
    decreases |ws|
  {
    if |ws| == 0 then "" else ws[0] + " " + Spaced(ws[1..])
  }

  lemma {:induction false} ScanSpaced(ws: seq<string>, w: seq<string>)
    requires forall i | 0 <= i < |ws| :: PlainWord(ws[i])
    ensures Scan(Spaced(ws), Lexer(w, "", false, Bare)) == Lexer(w + ws, "", false, Bare)
    decreases |ws|
  {
    var lx := Lexer(w, "", false, Bare);
    if |ws| == 0 {
      assert w + ws == w;
    } else {
      ScanAppend(ws[0] + " ", Spaced(ws[1..]), lx);
      ScanAppend(ws[0], " ", lx);
      ScanPlain(ws[0], w, "", false);
      assert "" + ws[0] == ws[0];
      ScanOne(' ', Lexer(w, ws[0], true, Bare));
      ScanSpaced(ws[1..], w + [ws[0]]);
      assert w + [ws[0]] + ws[1..] == w + ws;
    }
  }

  lemma ScanDoubleQuotedWord(s: string, w: seq<string>)
    requires DoubleQuoteSafe(s)
    ensures Scan("\"" + s + "\"", Lexer(w, "", false, Bare)) == Lexer(w, s, true, Bare)
  {
    var lx := Lexer(w, "", false, Bare);
    ScanAppend("\"" + s, "\"", lx);
    ScanAppend("\"", s, lx);
    ScanOne('"', lx);
    ScanDoubleQuoted(s, w, "");
    assert "" + s == s;
    ScanOne('"', Lexer(w, s, true, Double));
  }

  lemma SpacedThree(a: string, b: string, c: string)
    ensures Spaced([a, b, c]) == a + " " + b + " " + c + " "
  {
    assert [a, b, c][1..] == [b, c];
    assert [b, c][1..] == [c];
    assert [c][1..] == [];
    calc {
      Spaced([a, b, c]);
      a + " " + Spaced([b, c]);
      a + " " + (b + " " + Spaced([c]));
      a + " " + (b + " " + (c + " " + ""));
      a + " " + b + " " + c + " ";
    }
  }

  /** A number as formatted by the source is one plain word. */
  lemma DecimalIsPlainWord(n: int)
    ensures PlainWord(IntToDecimal(n))
  {
  }

  predicate PlainWord(s: string) {
    |s| > 0 && forall j | 0 <= j < |s| :: IsPlain(s[j])
  }

  lemma BareSafeIsPlainWord(s: string)
    requires BareSafe(s)
    ensures PlainWord(s)
  {
  }

  /** One blank after an open word closes it. */
  lemma ScanBlank(w: seq<string>, cur: string)
    ensures Scan(" ", Lexer(w, cur, true, Bare)) == Lexer(w + [cur], "", false, Bare)
  {
    ScanOne(' ', Lexer(w, cur, true, Bare));
  }

  /** Fixed plain words, each followed by a blank, at the start of a command line. */
  lemma ScanSpacedFromStart(ws: seq<string>, rest: string)
    requires forall i | 0 <= i < |ws| :: PlainWord(ws[i])
    ensures Scan(Spaced(ws) + rest, Start) == Scan(rest, Lexer(ws, "", false, Bare))
  {
    ScanAppend(Spaced(ws), rest, Start);
    ScanSpaced(ws, []);
    assert [] + ws == ws;
  }

  /** A '"' opening quoted text at a word boundary, and the safe text after it. */
  lemma ScanOpenQuoted(text: string, w: seq<string>)
    requires forall i | 0 <= i < |text| :: text[i] != '"' && text[i] != '\\'
    ensures Scan("\"" + text, Lexer(w, "", false, Bare)) == Lexer(w, text, true, Double)
  {
    var lx := Lexer(w, "", false, Bare);
    ScanAppend("\"", text, lx);
    ScanOne('"', lx);
    ScanDoubleQuoted(text, w, "");
    assert "" + text == text;
  }

  /** A plain word at a word boundary. */
  lemma ScanPlainWord(s: string, w: seq<string>)
    requires PlainWord(s)
    ensures Scan(s, Lexer(w, "", false, Bare)) == Lexer(w, s, true, Bare)
  {
    ScanPlain(s, w, "", false);
    assert "" + s == s;
  }

  /** `" "` inside double quotes: the quoted word ends and a new one opens. */
  lemma ScanCloseReopen(rest: string, w: seq<string>, cur: string)
    requires forall i | 0 <= i < |rest| :: rest[i] != '"' && rest[i] != '\\'
    ensures Scan("\" \"" + rest, Lexer(w, cur, true, Double)) == Lexer(w + [cur], rest, true, Double)
  {
    var lx := Lexer(w, cur, true, Double);
    assert "\" \"" + rest == "\"" + (" " + ("\"" + rest));
    ScanAppend("\"", " " + ("\"" + rest), lx);
    ScanOne('"', lx);
    ScanAppend(" ", "\"" + rest, Lexer(w, cur, true, Bare));
    ScanBlank(w, cur);
    ScanOpenQuoted(rest, w + [cur]);
  }

  /** The part of the create command after the plan name, scanned from inside its quotes. */
  lemma ScanCreateTail(limit: int, description: string, w: seq<string>, plan: string)
    requires DoubleQuoteSafe(description)
    ensures Scan("\" " + IntToDecimal(limit) + " \"" + description + "\"", Lexer(w, plan, true, Double))
         == Lexer(w + [plan, IntToDecimal(limit)], description, true, Bare)
  {
    var dec := IntToDecimal(limit);
    var lx := Lexer(w, plan, true, Double);
    assert "\" " + dec + " \"" + description + "\"" == "\"" + (" " + (dec + (" " + ("\"" + description + "\""))));
    ScanAppend("\"", " " + (dec + (" " + ("\"" + description + "\""))), lx);
    ScanOne('"', lx);
    ScanAppend(" ", dec + (" " + ("\"" + description + "\"")), Lexer(w, plan, true, Bare));
    ScanBlank(w, plan);
    ScanAppend(dec, " " + ("\"" + description + "\""), Lexer(w + [plan], "", false, Bare));
    DecimalIsPlainWord(limit);
    ScanPlainWord(dec, w + [plan]);
    ScanAppend(" ", "\"" + description + "\"", Lexer(w + [plan], dec, true, Bare));
    ScanBlank(w + [plan], dec);
    ScanDoubleQuotedWord(description, w + [plan] + [dec]);
    assert w + [plan] + [dec] == w + [plan, dec];
  }

  // Each command's fixed words, and the literal text they make up.

  lemma ToolIsPlain()
    ensures PlainWord(Tool)
  {
  }

  lemma ManifestIsPlain()
    ensures PlainWord(ParityManifest)
  {
  }

  lemma CreatePlain()
    ensures forall i | 0 <= i < 3 :: PlainWord([Tool, "credit-group", "create"][i])
  {
    ToolIsPlain();
    assert PlainWord("credit-group") && PlainWord("create");
  }

  lemma CreateCommandShape(plan: string, limit: int, description: string)
    ensures CommandAsWritten(CreateCreditGroup(plan, limit, description))
         == Spaced([Tool, "credit-group", "create"]) + (("\"" + plan) + ("\" " + IntToDecimal(limit) + " \"" + description + "\""))
  {
    var opening := "owui-token-tracking credit-group create \"";
    assert opening == Spaced([Tool, "credit-group", "create"]) + "\"" by {
      SpacedThree(Tool, "credit-group", "create");
    }
    Regroup(Spaced([Tool, "credit-group", "create"]), "\"", plan, "\" ", IntToDecimal(limit), " \"", description, "\"");
  }

  /** Concatenation regrouped as the scanning lemmas consume it. */
  lemma Regroup(p: string, q: string, a: string, t1: string, n: string, t2: string, d: string, t3: string)
    ensures (p + q) + a + t1 + n + t2 + d + t3 == p + ((q + a) + (t1 + n + t2 + d + t3))
  {
  }

  lemma AddUserPlain()
    ensures forall i | 0 <= i < 3 :: PlainWord([Tool, "credit-group", "add-user"][i])
  {
    ToolIsPlain();
    assert PlainWord("credit-group") && PlainWord("add-user");
  }

  lemma FindUserPlain()
    ensures forall i | 0 <= i < 4 :: PlainWord([Tool, "user", "find", "--email"][i])
  {
    ToolIsPlain();
    assert PlainWord("user") && PlainWord("find") && PlainWord("--email");
  }

  lemma FindUserSpaced()
    ensures Spaced([Tool, "user", "find", "--email"]) == "owui-token-tracking user find --email "
  {
    SpacedThree("user", "find", "--email");
    assert [Tool, "user", "find", "--email"][1..] == ["user", "find", "--email"];
  }

  lemma InitWords()
    ensures PlainWord(Tool) && PlainWord("init")
    ensures Spaced([Tool]) + "init" == "owui-token-tracking init"
  {
    ToolIsPlain();
    assert [Tool][1..] == [];
  }

  lemma ModelMigrationLiteral()
    ensures "owui-token-tracking init --model-json " + "token-tracking/token_parity.json"
         == "owui-token-tracking init --model-json token-tracking/token_parity.json"
  {
  }

  lemma ModelMigrationPlain()
    ensures forall i | 0 <= i < 3 :: PlainWord([Tool, "init", "--model-json"][i])
    ensures PlainWord(ParityManifest)
  {
    ToolIsPlain();
    ManifestIsPlain();
    assert PlainWord("init") && PlainWord("--model-json");
  }

  lemma ModelMigrationSpaced()
    ensures Spaced([Tool, "init", "--model-json"]) + ParityManifest
         == "owui-token-tracking init --model-json token-tracking/token_parity.json"
  {
    SpacedThree(Tool, "init", "--model-json");
    assert Tool + " " + "init" + " " + "--model-json" + " " == "owui-token-tracking init --model-json ";
    ModelMigrationLiteral();
  }

  /** Words of a command line that is fixed words then one last plain word. */
  lemma WordsOfFixedCommand(ws: seq<string>, last: string)
    requires forall i | 0 <= i < |ws| :: PlainWord(ws[i])
    requires PlainWord(last)
    ensures Words(Spaced(ws) + last) == Some(ws + [last])
  {
    ScanSpacedFromStart(ws, last);
    ScanPlainWord(last, ws);
  }

  /**
    On safe input the source's command lines pass the form's arguments intact:
    text inside "..." free of '"', '\', '$' and '`', and a user id made of
    characters a shell leaves alone.
  */
  lemma CreateAsWrittenIntact(plan: string, limit: int, description: string)
    requires DoubleQuoteSafe(plan) && DoubleQuoteSafe(description)
    ensures Words(CommandAsWritten(CreateCreditGroup(plan, limit, description)))
         == Some(Arguments(CreateCreditGroup(plan, limit, description)))
  {
    var tool3 := [Tool, "credit-group", "create"];
    var tail := "\" " + IntToDecimal(limit) + " \"" + description + "\"";
    CreatePlain();
    CreateCommandShape(plan, limit, description);
    ScanSpacedFromStart(tool3, ("\"" + plan) + tail);
    ScanAppend("\"" + plan, tail, Lexer(tool3, "", false, Bare));
    ScanOpenQuoted(plan, tool3);
    ScanCreateTail(limit, description, tool3, plan);
    assert tool3 + [plan, IntToDecimal(limit)] + [description] == Arguments(CreateCreditGroup(plan, limit, description));
  }

  lemma AddUserAsWrittenIntact(user: string, group: string)
    requires BareSafe(user) && DoubleQuoteSafe(group)
    ensures Words(CommandAsWritten(AddUserToGroup(user, group))) == Some(Arguments(AddUserToGroup(user, group)))
  {
    var tool3 := [Tool, "credit-group", "add-user"];
    var tail := " " + ("\"" + group + "\"");
    AddUserPlain();
    SpacedThree(Tool, "credit-group", "add-user");
    assert CommandAsWritten(AddUserToGroup(user, group)) == Spaced(tool3) + (user + tail);
    ScanSpacedFromStart(tool3, user + tail);
    ScanAppend(user, tail, Lexer(tool3, "", false, Bare));
    BareSafeIsPlainWord(user);
    ScanPlainWord(user, tool3);
    ScanAppend(" ", "\"" + group + "\"", Lexer(tool3, user, true, Bare));
    ScanBlank(tool3, user);
    ScanDoubleQuotedWord(group, tool3 + [user]);
    assert tool3 + [user] + [group] == Arguments(AddUserToGroup(user, group));
  }

  lemma FindUserAsWrittenIntact(email: string)
    requires DoubleQuoteSafe(email)
    ensures Words(CommandAsWritten(FindUser(email))) == Some(Arguments(FindUser(email)))
  {
    var tool4 := [Tool, "user", "find", "--email"];
    FindUserPlain();
    FindUserSpaced();
    assert CommandAsWritten(FindUser(email)) == Spaced(tool4) + ("\"" + email + "\"");
    ScanSpacedFromStart(tool4, "\"" + email + "\"");
    ScanDoubleQuotedWord(email, tool4);
    assert tool4 + [email] == Arguments(FindUser(email));
  }

  /** The two fixed migration commands split into the intended words. */
  lemma InitialMigrationIntact()
    ensures Words(CommandAsWritten(InitialMigration)) == Some([Tool, "init"])
  {
    InitWords();
    WordsOfFixedCommand([Tool], "init");
    assert [Tool] + ["init"] == [Tool, "init"];
  }

  lemma ModelMigrationIntact()
    ensures Words(CommandAsWritten(ModelMigration)) == Some([Tool, "init", "--model-json", ParityManifest])
  {
    ModelMigrationPlain();
    ModelMigrationSpaced();
    WordsOfFixedCommand([Tool, "init", "--model-json"], ParityManifest);
    assert [Tool, "init", "--model-json"] + [ParityManifest] == [Tool, "init", "--model-json", ParityManifest];
  }

  // ---- where the source's command lines go wrong ----

  /**
    A plan name holding `" "` ends the quoted argument early: the CLI receives
    the two halves as separate arguments, seven in all instead of six.
  */
  lemma CreatePlanNameQuoteSplits(x: string, y: string, limit: int, description: string)
    requires DoubleQuoteSafe(x) && DoubleQuoteSafe(y) && DoubleQuoteSafe(description)
    ensures var f := CreateCreditGroup(x + "\" \"" + y, limit, description);
      && Words(CommandAsWritten(f)) == Some([Tool, "credit-group", "create", x, y, IntToDecimal(limit), description])
      && Words(CommandAsWritten(f)) != Some(Arguments(f))
  {
    var plan := x + "\" \"" + y;
    var tool3 := [Tool, "credit-group", "create"];
    var tail := "\" " + IntToDecimal(limit) + " \"" + description + "\"";
    CreateCommandShape(plan, limit, description);
    CreatePlain();
    assert ("\"" + plan) + tail == ("\"" + x) + (("\" \"" + y) + tail);
    ScanSpacedFromStart(tool3, ("\"" + x) + (("\" \"" + y) + tail));
    ScanAppend("\"" + x, ("\" \"" + y) + tail, Lexer(tool3, "", false, Bare));
    ScanOpenQuoted(x, tool3);
    ScanAppend("\" \"" + y, tail, Lexer(tool3, x, true, Double));
    ScanCloseReopen(y, tool3, x);
    ScanCreateTail(limit, description, tool3 + [x], y);
    assert tool3 + [x] + [y, IntToDecimal(limit)] + [description]
        == [Tool, "credit-group", "create", x, y, IntToDecimal(limit), description];
  }

  /**
    The user id is not quoted at all: one holding a blank reaches the CLI as
    two arguments, so the group name lands in the wrong position.
  */
  lemma AddUserIdBlankSplits(a: string, b: string, group: string)
    requires BareSafe(a) && BareSafe(b) && DoubleQuoteSafe(group)
    ensures var f := AddUserToGroup(a + " " + b, group);
      && Words(CommandAsWritten(f)) == Some([Tool, "credit-group", "add-user", a, b, group])
      && Words(CommandAsWritten(f)) != Some(Arguments(f))
  {
    var tool3 := [Tool, "credit-group", "add-user"];
    var tail := " " + ("\"" + group + "\"");
    AddUserPlain();
    SpacedThree(Tool, "credit-group", "add-user");
    assert CommandAsWritten(AddUserToGroup(a + " " + b, group)) == Spaced(tool3) + (a + (" " + (b + tail)));
    ScanSpacedFromStart(tool3, a + (" " + (b + tail)));
    BareSafeIsPlainWord(a);
    BareSafeIsPlainWord(b);
    ScanAppend(a, " " + (b + tail), Lexer(tool3, "", false, Bare));
    ScanPlainWord(a, tool3);
    ScanAppend(" ", b + tail, Lexer(tool3, a, true, Bare));
    ScanBlank(tool3, a);
    ScanAppend(b, tail, Lexer(tool3 + [a], "", false, Bare));
    ScanPlainWord(b, tool3 + [a]);
    ScanAppend(" ", "\"" + group + "\"", Lexer(tool3 + [a], b, true, Bare));
    ScanBlank(tool3 + [a], b);
    ScanDoubleQuotedWord(group, tool3 + [a] + [b]);
    assert tool3 + [a] + [b] + [group] == [Tool, "credit-group", "add-user", a, b, group];
  }

  /** An email holding `" "` likewise reaches the CLI as two arguments. */
  lemma FindUserEmailQuoteSplits(x: string, y: string)
    requires DoubleQuoteSafe(x) && DoubleQuoteSafe(y)
    ensures var f := FindUser(x + "\" \"" + y);
      && Words(CommandAsWritten(f)) == Some([Tool, "user", "find", "--email", x, y])
      && Words(CommandAsWritten(f)) != Some(Arguments(f))
  {
    var tool4 := [Tool, "user", "find", "--email"];
    FindUserPlain();
    FindUserSpaced();
    assert CommandAsWritten(FindUser(x + "\" \"" + y)) == Spaced(tool4) + (("\"" + x) + (("\" \"" + y) + "\""));
    ScanSpacedFromStart(tool4, ("\"" + x) + (("\" \"" + y) + "\""));
    ScanAppend("\"" + x, ("\" \"" + y) + "\"", Lexer(tool4, "", false, Bare));
    ScanOpenQuoted(x, tool4);
    ScanAppend("\" \"" + y, "\"", Lexer(tool4, x, true, Double));
    ScanCloseReopen(y, tool4, x);
    ScanOne('"', Lexer(tool4 + [x], y, true, Double));
    assert tool4 + [x] + [y] == [Tool, "user", "find", "--email", x, y];
  }
}

=== FILE: outcomes.dfy ===
/** Failure-carrying wrappers shared by the other modules. */
module Outcomes {

  /** An optional value: an unset environment variable, a path that was not found. */
  datatype Option<+T> = None | Some(value: T)

  /** A value or the message the dashboard would show instead of acting. */
  datatype Result<+T, +E> = Ok(value: T) | Err(error: E)
}

=== FILE: shell_words.dfy ===
/**
  How `/bin/sh` cuts a command line into the argument vector of the program it
  runs: word splitting at blanks, quote removal for '...' and "...", and
  backslash escapes. Parameter expansion, command substitution, globbing,
  redirections and command separators are not modelled.
*/
module ShellWords {
  import opened Outcomes

  datatype Mode = Bare | BareEscape | Single | Double | DoubleEscape

  /** Lexer state: finished words, the word being built, whether one is open, the quoting mode. */
  datatype Lexer = Lexer(words: seq<string>, current: string, inWord: bool, mode: Mode)

  const Start: Lexer := Lexer([], "", false, Bare)

  predicate IsBlank(c: char) {
    c == ' ' || c == '\t' || c == '\n'
  }

  /** A character that stands for itself outside quotes. */
  predicate IsPlain(c: char) {
    !IsBlank(c) && c != '\'' && c != '"' && c != '\\'
  }

  /** Characters a backslash escapes inside double quotes. */
  predicate EscapableInDouble(c: char) {
    c == '"' || c == '\\' || c == '$' || c == '`'
  }

  function Step(lx: Lexer, c: char): Lexer {
    match lx.mode
    case Bare =>
      if IsBlank(c) then
        (if lx.inWord then Lexer(lx.words + [lx.current], "", false, Bare) else lx)
      else if c == '\'' then lx.(inWord := true, mode := Single)
      else if c == '"' then lx.(inWord := true, mode := Double)
      else if c == '\\' then lx.(mode := BareEscape)
      else lx.(current := lx.current + [c], inWord := true)
    case BareEscape =>
      // backslash-newline is a line continuation and vanishes
      if c == '\n' then lx.(mode := Bare)
      else lx.(current := lx.current + [c], inWord := true, mode := Bare)
    case Single =>
      if c == '\'' then lx.(mode := Bare) else lx.(current := lx.current + [c])
    case Double =>
      if c == '"' then lx.(mode := Bare)
      else if c == '\\' then lx.(mode := DoubleEscape)
      else lx.(current := lx.current + [c])
    case DoubleEscape =>
      if c == '\n' then lx.(mode := Double)
      else if EscapableInDouble(c) then lx.(current := lx.current + [c], mode := Double)
      else lx.(current := lx.current + ['\\', c], mode := Double)
  }

  function Scan(s: string, lx: Lexer): Lexer
    decreases |s|
  {
    if |s| == 0 then lx else Scan(s[1..], Step(lx, s[0]))
  }

  /** The argument vector of a command line, or None if a quote or escape is left open. */
  function Words(s: string): Option<seq<string>> {
    var end := Scan(s, Start);
    if end.mode != Bare then None
    else Some(if end.inWord then end.words + [end.current] else end.words)
  }

  lemma {:induction false} ScanAppend(a: string, b: string, lx: Lexer)
    ensures Scan(a + b, lx) == Scan(b, Scan(a, lx))
    decreases |a|
  {
    if |a| == 0 {
      assert a + b == b;
    } else {
      assert (a + b)[0] == a[0] && (a + b)[1..] == a[1..] + b;
      ScanAppend(a[1..], b, Step(lx, a[0]));
    }
  }

  lemma ScanOne(c: char, lx: Lexer)
    ensures Scan([c], lx) == Step(lx, c)
  {
    assert [c][1..] == [];
  }

  /** Plain characters outside quotes extend the current word. */
  lemma {:induction false} ScanPlain(s: string, w: seq<string>, cur: string, inWord: bool)
    requires forall i | 0 <= i < |s| :: IsPlain(s[i])
    ensures Scan(s, Lexer(w, cur, inWord, Bare)) == Lexer(w, cur + s, inWord || |s| > 0, Bare)
    decreases |s|
  {
    if |s| > 0 {
      ScanPlain(s[1..], w, cur + [s[0]], true);
      assert cur + [s[0]] + s[1..] == cur + s;
    } else {
      assert cur + s == cur;
    }
  }

  /** Inside double quotes, text without '"' or '\' is taken literally. */
  lemma {:induction false} ScanDoubleQuoted(s: string, w: seq<string>, cur: string)
    requires forall i | 0 <= i < |s| :: s[i] != '"' && s[i] != '\\'
    ensures Scan(s, Lexer(w, cur, true, Double)) == Lexer(w, cur + s, true, Double)
    decreases |s|
  {
    if |s| > 0 {
      ScanDoubleQuoted(s[1..], w, cur + [s[0]]);
      assert cur + [s[0]] + s[1..] == cur + s;
    } else {
      assert cur + s == cur;
    }
  }

  /** Text of `s` for inside single quotes: each ' becomes '"'"' (close, quoted ', reopen). */
  function EscapeSingle(s: string): string
    decreases |s|
  {
    if |s| == 0 then ""
    else (if s[0] == '\'' then "'\"'\"'" else [s[0]]) + EscapeSingle(s[1..])
  }

  /** `s` as one shell word, whatever characters it holds. */
  function Quote(s: string): string {
    "'" + EscapeSingle(s) + "'"
  }

  lemma ScanQuotedApostrophe(w: seq<string>, cur: string)
    ensures Scan("'\"'\"'", Lexer(w, cur, true, Single)) == Lexer(w, cur + ['\''], true, Single)
  {
    var lx := Lexer(w, cur, true, Single);
    ScanAppend("'", "\"'\"'", lx);
    ScanOne('\'', lx);
    var l1 := Lexer(w, cur, true, Bare);
    ScanAppend("\"", "'\"'", l1);
    ScanOne('"', l1);
    var l2 := Lexer(w, cur, true, Double);
    ScanAppend("'", "\"'", l2);
    ScanOne('\'', l2);
    var l3 := Lexer(w, cur + ['\''], true, Double);
    ScanAppend("\"", "'", l3);
    ScanOne('"', l3);
    ScanOne('\'', Lexer(w, cur + ['\''], true, Bare));
  }

  lemma {:induction false} ScanEscaped(s: string, w: seq<string>, cur: string)
    ensures Scan(EscapeSingle(s), Lexer(w, cur, true, Single)) == Lexer(w, cur + s, true, Single)
    decreases |s|
  {
    if |s| == 0 {
      assert cur + s == cur;
    } else {
      var head := if s[0] == '\'' then "'\"'\"'" else [s[0]];
      var lx := Lexer(w, cur, true, Single);
      ScanAppend(head, EscapeSingle(s[1..]), lx);
      if s[0] == '\'' {
        ScanQuotedApostrophe(w, cur);
      } else {
        ScanOne(s[0], lx);
      }
      ScanEscaped(s[1..], w, cur + [s[0]]);
      assert cur + [s[0]] + s[1..] == cur + s;
    }
  }

  lemma ScanQuote(s: string, w: seq<string>)
    ensures Scan(Quote(s), Lexer(w, "", false, Bare)) == Lexer(w, s, true, Bare)
  {
    var lx := Lexer(w, "", false, Bare);
    ScanAppend("'" + EscapeSingle(s), "'", lx);
    ScanAppend("'", EscapeSingle(s), lx);
    ScanOne('\'', lx);
    ScanEscaped(s, w, "");
    assert "" + s == s;
    ScanOne('\'', Lexer(w, s, true, Single));
  }

  /** An argument vector as one command line, every argument single-quoted, with the apostrophe escape `shlex.quote` uses. */
  function Join(argv: seq<string>): string
    decreases |argv|
  {
    if |argv| == 0 then ""
    else if |argv| == 1 then Quote(argv[0])
    else Quote(argv[0]) + " " + Join(argv[1..])
  }

  lemma {:induction false} ScanJoin(argv: seq<string>, w: seq<string>)
    requires |argv| > 0
    ensures Scan(Join(argv), Lexer(w, "", false, Bare)) == Lexer(w + argv[..|argv| - 1], argv[|argv| - 1], true, Bare)
    decreases |argv|
  {
    var lx := Lexer(w, "", false, Bare);
    if |argv| == 1 {
      ScanQuote(argv[0], w);
      assert w + argv[..0] == w;
    } else {
      ScanAppend(Quote(argv[0]) + " ", Join(argv[1..]), lx);
      ScanAppend(Quote(argv[0]), " ", lx);
      ScanQuote(argv[0], w);
      ScanOne(' ', Lexer(w, argv[0], true, Bare));
      ScanJoin(argv[1..], w + [argv[0]]);
      assert w + [argv[0]] + argv[1..][..|argv| - 2] == w + argv[..|argv| - 1];
    }
  }

  /** Splitting a joined command line gives back exactly the arguments joined. */
  lemma JoinRoundTrip(argv: seq<string>)
    ensures Words(Join(argv)) == Some(argv)
  {
    if |argv| > 0 {
      ScanJoin(argv, []);
      assert [] + argv[..|argv| - 1] + [argv[|argv| - 1]] == argv;
    }
  }
}
